=== FILE: README.md ===
# API gateway request routing, modelled in Dafny

The gateway is a FastAPI application with one catch-all route,
`/{service}/{path}`. Its handler `route_request` looks the first path segment
up in a fixed service registry, joins the backend base URL and the rest of the
path, forwards the request with its headers, query parameters and (for POST
and PUT) its body, and relays the backend's answer: decoded when the content
type contains the exact, case-sensitive text `application/json`, otherwise as raw
bytes handed to the framework's response object together with the backend's
content type and status (the framework may still append a charset to a `text/`
type; see "## Left out"). An unknown service is a 404; every failure inside the
handler after the registry check is rewrapped as a 500 whose detail names the
service.

This project models that handler as pure functions over immutable data:

- `wrappers.dfy` (`Wrappers`): `Option` and `Result`, the latter standing for a
  call that may raise.
- `text.dfy` (`Text`): Python's substring test `needle in hay` (`Contains`,
  proved equal to an existential definition) and ASCII `lower()`.
- `multidict.dfy` (`Multidict`): the reduction of a repeated-name list to a
  one-value-per-name map, as `dict(request.headers)` and
  `dict(request.query_params)` do, under either duplicate policy.
- `registry.dfy` (`Registry`): the service registry and exact-match lookup.
- `forwarding.dfy` (`Forwarding`): the kernel. `PlanRequest` is the decision
  taken before the network (`Error(envelope)` or `Forward(plan)`),
  `ClassifyResponse` turns a backend reply into a `Relay` (`Json(value)` or
  `Raw(bytes, mediaType, status)`), and `RouteRequest` composes them through a
  `Gateway` that supplies the registry, the duplicate policies, the HTTP
  client `send` and the JSON decoder `decode`, both as possibly-failing
  functions.
- `properties.dfy` (`GatewayProperties`): lemmas relating several calls.

Behaviour of the handler worth knowing, all captured by the model:

- The route is `/{service}/{path}`: the first path segment is the service
  name and everything after it is the sub-path.
- Every backend reply is read in full and then either decoded or relayed raw;
  there is no incremental relay.
- An empty POST or PUT body is not passed on as empty bytes: the client is
  handed a `{}` placeholder instead (`EmptyPlaceholder`).
- The method-not-allowed exception is raised inside the forwarding block, so
  the handler's catch-all turns it into a 500 whose message is
  `405: Method not allowed` (the text of the caught exception); the handler
  itself never answers 405.
- Errors are raised as HTTP exceptions carrying a status and a detail text.
- The handler lower-cases the method before dispatch, so the handler accepts
  any letter case of the four method names; the route itself admits only the
  upper-case `GET`, `POST`, `PUT` and `DELETE`, and the framework answers other
  spellings with its own 405 before the handler runs.

## Model

| member | source | states |
|---|---|---|
| Registry.Resolve | app/main.py:30-33 | a service resolves to a URL exactly when the pair is in the registry, and misses exactly when the name is not a key |
| Registry.ConfiguredServicesResolve | app/main.py:9-14 | the four configured services resolve to their configured URLs unchanged, and no other name resolves |
| Registry.LookupIsExact | app/main.py:30 | the lookup is case-sensitive and does not trim: `Payment`, `PAYMENT`, `payment `, `blog` and the empty name are unknown |
| Text.Contains | app/main.py:73 | the `in` test on the content type is true exactly when the needle occurs at some position of the text |
| Text.Lower | app/main.py:38 | lower-casing keeps the length, leaves no upper-case ASCII letter, and changes a character only by turning `A`..`Z` into `a`..`z` |
| Text.LowerMatchesCaseVariants | app/main.py:38 | lower-casing a method gives a lower-case word exactly when the method is that word in some mix of letter cases |
| Multidict.KeepFirst | app/main.py:39-40 | the first-value-wins reduction has exactly the listed names, every value was given for its name, and each name keeps its first value |
| Multidict.KeepLast | app/main.py:39-40 | the last-value-wins reduction has exactly the listed names, every value was given for its name, and each name keeps its last value |
| Multidict.Collapse | app/main.py:39-40 | under either policy the reduced map has exactly the inbound names and only values the caller sent for them, the first or last one as the policy says |
| Multidict.CollapseDistinctIsExact | app/main.py:39-40 | when no name repeats, the reduced map holds every inbound pair and the two policies agree |
| Forwarding.NotFound | app/main.py:31 | the unknown-service error is a 404 whose detail is `Service `, the service name, then ` not found` |
| Forwarding.ForwardingError | app/main.py:83-86 | the rewrapped error is a 500 whose detail is exactly the forwarding prefix naming the service followed by the exception text |
| Forwarding.TargetUrl | app/main.py:34 | the outbound URL is the base URL unchanged, one slash, then the sub-path unchanged |
| Forwarding.ParseMethod | app/main.py:38-67 | a method is dispatched as GET, POST, PUT or DELETE exactly when it spells that name in any letter case; anything else takes the 405 branch |
| Forwarding.OutboundBody | app/main.py:44-65 | GET and DELETE send no body; POST and PUT always send one, the placeholder exactly when the inbound body is empty, real content is never empty, and the inbound body is recoverable from what is sent |
| Forwarding.PlanRequest | app/main.py:30-67 | an unknown service is the 404 `Service {service} not found`; a 404 happens only then; every other error is a 500 with the forwarding prefix; a plan exists exactly for a known service, a readable body and a known method, and its URL, method, header names, query names and body follow the inbound request, an empty POST or PUT body going out exactly as the placeholder |
| Forwarding.ClassifyResponse | app/main.py:70-81 | a content type (empty when absent) containing `application/json` yields the decoded value or the decoder's failure; any other yields the backend's bytes, content type and status unchanged |
| Forwarding.RouteRequest | app/main.py:27-86 | a failed reply is 404 or 500; 404 exactly for an unknown service; every 500 detail is the forwarding prefix naming the service |
| GatewayProperties.UnknownServiceIsNotFound | app/main.py:30-31 | an unknown service gives `404 Service {service} not found` without a plan, and the backend and decoder make no difference to the reply |
| GatewayProperties.NotFoundNamesService | app/main.py:31 | the 404 detail contains the service name |
| GatewayProperties.KnownServiceUrl | app/main.py:33-34 | a planned URL is the service's configured base URL, a slash, and the sub-path recovered unchanged |
| GatewayProperties.SubPathInvertsTargetUrl | app/main.py:34 | splitting a joined URL at the base gives back the sub-path, and different sub-paths give different URLs |
| GatewayProperties.UrlJoinIsLiteral | app/main.py:34 | the join adds exactly one slash and normalises nothing: doubled slashes, a trailing slash and spaces survive |
| GatewayProperties.MethodNamesSelectMethods | app/main.py:44-62 | each method's lower-case name dispatches to that method |
| GatewayProperties.MethodsInAnyCase | app/main.py:38-62 | `GET`, `Post`, `PUT` and `DeLeTe` dispatch to their methods |
| GatewayProperties.OtherMethodsAreRejected | app/main.py:66-67 | `PATCH`, `HEAD` and the empty method take the method-not-allowed branch |
| GatewayProperties.MethodIsPreserved | app/main.py:38-65 | the plan's method is the one the inbound method names |
| GatewayProperties.BodilessMethodsIgnoreBody | app/main.py:44-47 | GET and DELETE plans carry no body and do not change whatever body the caller sent |
| GatewayProperties.BodyIsForwarded | app/main.py:48-61 | for a POST or PUT plan the inbound body is recoverable from the plan's body: non-empty bytes go out as they are and an empty body goes out as the placeholder |
| GatewayProperties.HeadersAndQueryArePropagated | app/main.py:39-40 | a plan's headers and query parameters have the inbound names and only inbound values, and equal the inbound ones when no name repeats |
| GatewayProperties.ClassificationIsBySubstring | app/main.py:70-81 | a reply is relayed raw exactly when its content type does not contain `application/json`, and then with the backend's bytes, media type and status |
| GatewayProperties.ClassificationExamples | app/main.py:70-81 | an absent header, `application/octet-stream` and `Application/JSON` are relayed raw; `application/json; charset=utf-8` is decoded |
| GatewayProperties.BodyReadFailureIs500 | app/main.py:41 | a body that cannot be read gives 500 with the forwarding prefix and the exception text, before the method is examined |
| GatewayProperties.UnsupportedMethodIs500 | app/main.py:66-67 | an unsupported method on a known service ends as 500 `Error forwarding request to {service}: 405: Method not allowed`, not as 405 |
| GatewayProperties.TransportFailureIs500 | app/main.py:45-65 | a failing backend call gives 500 with the forwarding prefix and the client's exception text |
| GatewayProperties.DecodeFailureIs500 | app/main.py:73-74 | a JSON reply that fails to decode gives 500 with the forwarding prefix and the decoder's exception text |
| GatewayProperties.ForwardingDetailNamesService | app/main.py:83-86 | a rewrapped forwarding detail contains the service name |
| GatewayProperties.ErrorsNameTheService | app/main.py:30-86 | no reply is a 405, and every error detail contains the service name |
| GatewayProperties.RelayedExactlyOnSuccess | app/main.py:36-81 | a reply is relayed exactly when a plan was made, the backend answered, and the answer classified without failure |

## Left out

- The HTTP client: connection pooling, the real GET/POST/PUT/DELETE calls and closing the client at shutdown are network I/O in a foreign library; the client is the abstract function `send`, which returns a reply or the exception text. What it does with the `{}` placeholder is its own behaviour and is not modelled: it may send it as an empty body or reject a dict as content outright (recent versions raise a type error), which ends as a 500 like any other failing call; the abstract `send` allows both.
- JSON decoding is a library call; it is the abstract function `decode`, which returns a value or the exception text. Re-encoding the decoded value for the caller is the framework's and happens after the handler has returned: the decoder accepts the non-finite constants `NaN`, `Infinity` and `-Infinity`, the framework's re-encoding rejects them, and such a reply ends as the framework's generic 500, which does not name the service, rather than as the forwarding error. The model's `Relayed(Json(v))` describes the handler's return value only.
- Which of several values for one header or query name survives `dict(...)` is the web framework's choice; the model takes it as a `Policy` parameter and proves its properties for both choices. Header-name case handling by the framework is not modelled: the inbound pairs are taken as the framework presents them.
- Forwarding.ClassifyResponse: treats building the raw reply as always succeeding, but the framework's response object encodes the media type as Latin-1 inside the forwarding block, so a backend content type holding a character outside Latin-1 (for example `text/plain; name=€`) raises there and the handler answers a 500 naming the service instead of relaying the bytes. The framework's header encoding is not part of this model. `Raw` models the arguments the handler gives the framework's response object, not the header the caller receives: that object also appends `; charset=utf-8` to a media type that starts with `text/` and has no `charset=`, so a backend `text/plain` reaches the caller as `text/plain; charset=utf-8`.
- The response-header lookup is the client library's (case-insensitive, joins repeated values); the model receives its result as `BackendResponse.contentType`.
- Forwarding.ParseMethod: lower-cases ASCII letters only, because Python's Unicode `lower()` maps no non-ASCII character onto the letters of `get`, `post`, `put` or `delete`, so dispatch is unaffected.
- The message `405: Method not allowed` is the string form the web framework gives its HTTP exception (status, a colon, the detail); the framework's exception class is not part of this model, so the text is a constant here.
- Async/await and concurrency between requests are scheduling, not decision logic.
- The health endpoint, FastAPI routing and decorators (including the framework's own method check on the route), the status 200 the framework gives a returned JSON value, the JSON rendering of raised HTTP exceptions, and starting the server are framework plumbing.
- `app/configs/config.py` only reads environment variables and parses the port; it is not part of this model.

=== FILE: forwarding.dfy ===
/**
 * The decision kernel of the gateway's catch-all handler: resolve the
 * service, build the outbound request, dispatch on the method, classify the
 * backend's reply, and map every failure to an error envelope.
 *
 * The HTTP client and the JSON decoder are outside the kernel; they appear as
 * the possibly-failing functions `send` and `decode` of a `Gateway`.
 */
module Forwarding {
  import opened Wrappers
  import opened Text
  import opened Multidict
  import opened Registry

  newtype byte = x: int | 0 <= x < 256

  type Bytes = seq<byte>

  /** The methods the handler forwards. */
  datatype Method = Get | Post | Put | Delete

  /** The lower-case spelling the handler compares the inbound method against. */
  function MethodName(m: Method): string {
    match m
    case Get => "get"
    case Post => "post"
    case Put => "put"
    case Delete => "delete"
  }

  /** POST and PUT carry a body to the backend; GET and DELETE do not. */
  predicate CarriesBody(m: Method) {
    m == Post || m == Put
  }

  /** The inbound request as the handler sees it; reading the body can fail. */
  datatype Inbound = Inbound(verb: string, headers: Pairs, query: Pairs, body: Result<Bytes, string>)

  /** What the outbound request carries as its content. */
  datatype Body =
    | NoBody                 // GET and DELETE: no content argument at all
    | Content(data: Bytes)   // the inbound bytes, passed through
    | EmptyPlaceholder       // the `{}` handed to the client when the inbound body is empty

  /** The outbound request the gateway issues. */
  datatype Plan = Plan(verb: Method, url: string, headers: map<string, string>, params: map<string, string>, body: Body)

  /** An HTTP error raised to the framework: a status code and a detail text. */
  datatype ErrorEnvelope = ErrorEnvelope(status: int, detail: string)

  /** The decision taken before any network traffic: fail, or issue `plan`. */
  datatype Outcome = Error(error: ErrorEnvelope) | Forward(plan: Plan)

  /** The metadata and content of a backend reply; `contentType` is absent when the header is. */
  datatype BackendResponse = BackendResponse(status: int, contentType: Option<string>, content: Bytes)

  /** How a backend reply goes back to the caller: decoded JSON, or the bytes as they came. */
  datatype Relay<J> = Json(value: J) | Raw(content: Bytes, mediaType: string, status: int)

  /** The handler's final answer. */
  datatype Reply<J> = Failed(error: ErrorEnvelope) | Relayed(relay: Relay<J>)

  /**
   * Everything the handler consults besides the request: the registry, how
   * repeated header and query names are reduced, the HTTP client and the
   * JSON decoder. A failing `send` or `decode` yields the exception text.
   */
  datatype Gateway<J> = Gateway(
    registry: map<string, string>,
    headerPolicy: Policy,
    queryPolicy: Policy,
    send: Plan -> Result<BackendResponse, string>,
    decode: Bytes -> Result<J, string>)

  /** The substring whose presence in the content type selects JSON decoding. */
  const JsonMediaType: string := "application/json"

  /** The text of the method-not-allowed exception once it is caught: `str()` of an HTTPException is "{status}: {detail}". */
  const MethodNotAllowedMessage: string := "405: Method not allowed"

  /** The prefix of every detail produced by the catch-all exception handler. */
  function ForwardingPrefix(service: string): string {
    "Error forwarding request to " + service + ": "
  }

  /** The 404 raised for a service missing from the registry. */
  function NotFound(service: string): (e: ErrorEnvelope)
    ensures e.status == 404
    ensures OccursAt(e.detail, service, |"Service "|)
    ensures e.detail[..|"Service "|] == "Service " && e.detail[|"Service "| + |service|..] == " not found"
  {
    var e := ErrorEnvelope(404, "Service " + service + " not found");
    assert e.detail[|"Service "|..|"Service "| + |service|] == service;
    e
  }

  /** The 500 every failure inside the forwarding block is rewrapped into. */
  function ForwardingError(service: string, message: string): (e: ErrorEnvelope)
    ensures e.status == 500
    ensures IsForwardingDetail(e.detail, service)
    ensures |e.detail| == |ForwardingPrefix(service)| + |message|
    ensures e.detail[|e.detail| - |message|..] == message
  {
    var e := ErrorEnvelope(500, ForwardingPrefix(service) + message);
    assert e.detail == ForwardingPrefix(service) + message;
    e
  }

  /** `detail` has the shape of a rewrapped forwarding failure for `service`. */
  ghost predicate IsForwardingDetail(detail: string, service: string) {
    exists message :: detail == ForwardingPrefix(service) + message
  }

  /** The handler's dispatch on `request.method.lower()`; `None` stands for the 405 branch. */
  function ParseMethod(raw: string): (r: Option<Method>)
    ensures forall m :: r == Some(m) <==> CaseVariantOf(raw, MethodName(m))
  {
    LowerMatchesCaseVariants(raw, "get");
    LowerMatchesCaseVariants(raw, "post");
    LowerMatchesCaseVariants(raw, "put");
    LowerMatchesCaseVariants(raw, "delete");
    var lower := Lower(raw);
    if lower == "get" then Some(Get)
    else if lower == "post" then Some(Post)
    else if lower == "put" then Some(Put)
    else if lower == "delete" then Some(Delete)
    else None
  }

  /** The outbound URL: the base URL, a slash, and the sub-path, joined literally. */
  function TargetUrl(base: string, path: string): (url: string)
    ensures |url| == |base| + 1 + |path|
    ensures url[..|base|] == base && url[|base|] == '/' && url[|base| + 1..] == path
  {
    base + "/" + path
  }

  /** The inverse of `TargetUrl` for a known base: the sub-path a URL was built from. */
  function SubPath(base: string, url: string): Option<string> {
    if |base| < |url| && url[..|base|] == base && url[|base|] == '/' then Some(url[|base| + 1..]) else None
  }

  /** The content of the outbound request for method `m` and inbound body `body`. */
  function OutboundBody(m: Method, body: Bytes): (r: Body)
    ensures !CarriesBody(m) ==> r == NoBody
    ensures CarriesBody(m) ==> r != NoBody
    ensures r == EmptyPlaceholder <==> CarriesBody(m) && |body| == 0
    ensures r.Content? ==> |r.data| > 0
    ensures InboundBodyOf(r) == (if CarriesBody(m) then Some(body) else None)
  {
    if CarriesBody(m) then
      if |body| > 0 then Content(body) else EmptyPlaceholder
    else
      NoBody
  }

  /** The inbound body an outbound content stands for; `None` when nothing is sent. */
  function InboundBodyOf(b: Body): Option<Bytes> {
    match b
    case NoBody => None
    case Content(data) => Some(data)
    case EmptyPlaceholder => Some([])
  }

  /**
   * The decision taken before the outbound call. The registry check comes
   * first and raises 404; everything after it runs inside the forwarding
   * block, so a failed body read and an unsupported method both end as 500.
   */
  function PlanRequest(registry: map<string, string>, headerPolicy: Policy, queryPolicy: Policy,
                       service: string, path: string, req: Inbound): (r: Outcome)
    ensures service !in registry ==> r == Error(NotFound(service))
    ensures r.Error? && r.error.status == 404 <==> service !in registry
    ensures r.Error? ==> r.error.status == 404 || (r.error.status == 500 && IsForwardingDetail(r.error.detail, service))
    ensures r.Forward? <==> service in registry && req.body.Success? && ParseMethod(req.verb).Some?
    ensures r.Forward? ==> && r.plan.url == registry[service] + "/" + path
                           && CaseVariantOf(req.verb, MethodName(r.plan.verb))
                           && r.plan.headers.Keys == KeysOf(req.headers)
                           && r.plan.params.Keys == KeysOf(req.query)
                           && InboundBodyOf(r.plan.body) == (if CarriesBody(r.plan.verb) then Some(req.body.value) else None)
                           && (r.plan.body == EmptyPlaceholder <==> CarriesBody(r.plan.verb) && |req.body.value| == 0)
                           && (r.plan.body.Content? ==> |r.plan.body.data| > 0)
  {
    match Resolve(registry, service)
    case None => Error(NotFound(service))
    case Some(base) =>
      var url := TargetUrl(base, path);
      var headers := Collapse(req.headers, headerPolicy);
      var params := Collapse(req.query, queryPolicy);
      match req.body
      case Failure(message) => Error(ForwardingError(service, message))
      case Success(body) =>
        match ParseMethod(req.verb)
        case None => Error(ForwardingError(service, MethodNotAllowedMessage))
        case Some(m) => Forward(Plan(m, url, headers, params, OutboundBody(m, body)))
  }

  /**
   * How a backend reply is relayed: decoded when its content type (empty
   * when absent) contains `application/json`, otherwise passed on with its
   * own bytes, media type and status. A decoding failure is the exception text.
   */
  function ClassifyResponse<J>(resp: BackendResponse, decode: Bytes -> Result<J, string>): (r: Result<Relay<J>, string>)
    ensures var contentType := resp.contentType.GetOr("");
            && (IsSubstring(JsonMediaType, contentType) ==>
                  match decode(resp.content)
                  case Success(v) => r == Success(Json(v))
                  case Failure(e) => r == Failure(e))
            && (!IsSubstring(JsonMediaType, contentType) ==> r == Success(Raw(resp.content, contentType, resp.status)))
  {
    var contentType := resp.contentType.GetOr("");
    if Contains(contentType, JsonMediaType) then
      match decode(resp.content)
      case Success(v) => Success(Json(v))
      case Failure(message) => Failure(message)
    else
      Success(Raw(resp.content, contentType, resp.status))
  }

  /** The whole handler: plan, send, classify, and rewrap any failure after the registry check. */
  function RouteRequest<J>(gw: Gateway<J>, service: string, path: string, req: Inbound): (r: Reply<J>)
    ensures r.Failed? ==> r.error.status == 404 || r.error.status == 500
    ensures r.Failed? && r.error.status == 404 <==> service !in gw.registry
    ensures r.Failed? && r.error.status == 500 ==> IsForwardingDetail(r.error.detail, service)
  {
    match PlanRequest(gw.registry, gw.headerPolicy, gw.queryPolicy, service, path, req)
    case Error(e) => Failed(e)
    case Forward(plan) =>
      match gw.send(plan)
      case Failure(message) => Failed(ForwardingError(service, message))
      case Success(resp) =>
        match ClassifyResponse(resp, gw.decode)
        case Failure(message) => Failed(ForwardingError(service, message))
        case Success(relay) => Relayed(relay)
  }
}

=== FILE: multidict.dfy ===
/**
 * Reduction of a multi-valued mapping (a header list, a query string) to a
 * plain one-value-per-key map, as `dict(request.headers)` and
 * `dict(request.query_params)` do. Which duplicate survives is the web
 * framework's choice, so it is a parameter here.
 */
module Multidict {

  /** An ordered list of name/value pairs in which a name may repeat. */
  type Pairs = seq<(string, string)>

  /** Which of several values given for one key the reduced map keeps. */
  datatype Policy = FirstWins | LastWins

  /** The keys mentioned anywhere in `pairs`. */
  ghost function KeysOf(pairs: Pairs): set<string> {
    set p | p in pairs :: p.0
  }

  /** Position `i` holds the first pair with its key. */
  ghost predicate IsFirstOccurrence(pairs: Pairs, i: int)
    requires 0 <= i < |pairs|
  {
    forall j :: 0 <= j < i ==> pairs[j].0 != pairs[i].0
  }

  /** Position `i` holds the last pair with its key. */
  ghost predicate IsLastOccurrence(pairs: Pairs, i: int)
    requires 0 <= i < |pairs|
  {
    forall j :: i < j < |pairs| ==> pairs[j].0 != pairs[i].0
  }

  /** No key appears twice in `pairs`. */
  ghost predicate DistinctKeys(pairs: Pairs) {
    forall i, j :: 0 <= i < j < |pairs| ==> pairs[i].0 != pairs[j].0
  }

  /** The keys of a non-empty list: the head's key and the keys of the tail. */
  lemma KeysOfCons(pairs: Pairs)
    requires |pairs| > 0
    ensures KeysOf(pairs) == {pairs[0].0} + KeysOf(pairs[1..])
    ensures forall p :: p in pairs[1..] ==> p in pairs
  {
    assert pairs == [pairs[0]] + pairs[1..];
  }

  /** A first occurrence beyond the head is a first occurrence in the tail. */
  lemma FirstOccurrencesOfTail(pairs: Pairs)
    requires |pairs| > 0
    ensures forall i :: 1 <= i < |pairs| && IsFirstOccurrence(pairs, i) ==> IsFirstOccurrence(pairs[1..], i - 1)
  {
    forall i | 1 <= i < |pairs| && IsFirstOccurrence(pairs, i)
      ensures IsFirstOccurrence(pairs[1..], i - 1)
    {
      assert forall j :: 0 <= j < i - 1 ==> pairs[1..][j] == pairs[j + 1];
    }
  }

  /** A last occurrence beyond the head is a last occurrence in the tail. */
  lemma LastOccurrencesOfTail(pairs: Pairs)
    requires |pairs| > 0
    ensures forall i :: 1 <= i < |pairs| && IsLastOccurrence(pairs, i) ==> IsLastOccurrence(pairs[1..], i - 1)
  {
    forall i | 1 <= i < |pairs| && IsLastOccurrence(pairs, i)
      ensures IsLastOccurrence(pairs[1..], i - 1)
    {
      assert forall j :: i - 1 < j < |pairs| - 1 ==> pairs[1..][j] == pairs[j + 1];
    }
  }

  /** Keeps, for every key, the value of its first pair. */
  function KeepFirst(pairs: Pairs): (m: map<string, string>)
    ensures m.Keys == KeysOf(pairs)
    ensures forall k :: k in m ==> (k, m[k]) in pairs
    ensures forall i :: 0 <= i < |pairs| && IsFirstOccurrence(pairs, i) ==> m[pairs[i].0] == pairs[i].1
    decreases |pairs|
  {
    if |pairs| == 0 then
      map[]
    else
      KeysOfCons(pairs);
      FirstOccurrencesOfTail(pairs);
      KeepFirst(pairs[1..])[pairs[0].0 := pairs[0].1]
  }

  /** Keeps, for every key, the value of its last pair: a later pair overrides an earlier one. */
  function KeepLast(pairs: Pairs): (m: map<string, string>)
    ensures m.Keys == KeysOf(pairs)
    ensures forall k :: k in m ==> (k, m[k]) in pairs
    ensures forall i :: 0 <= i < |pairs| && IsLastOccurrence(pairs, i) ==> m[pairs[i].0] == pairs[i].1
    decreases |pairs|
  {
    if |pairs| == 0 then
      map[]
    else
      KeysOfCons(pairs);
      LastOccurrencesOfTail(pairs);
      var later := KeepLast(pairs[1..]);
      if pairs[0].0 in later then later else later[pairs[0].0 := pairs[0].1]
  }

  /**
   * The one-value-per-key map the framework's `dict(...)` produces under
   * `policy`: exactly the names of the pairs, each with a value the caller
   * gave for it, the first or the last one as the policy says.
   */
  function Collapse(pairs: Pairs, policy: Policy): (m: map<string, string>)
    ensures m.Keys == KeysOf(pairs)
    ensures forall k :: k in m ==> (k, m[k]) in pairs
    ensures policy == FirstWins ==> forall i :: 0 <= i < |pairs| && IsFirstOccurrence(pairs, i) ==> m[pairs[i].0] == pairs[i].1
    ensures policy == LastWins ==> forall i :: 0 <= i < |pairs| && IsLastOccurrence(pairs, i) ==> m[pairs[i].0] == pairs[i].1
  {
    match policy
    case FirstWins => KeepFirst(pairs)
    case LastWins => KeepLast(pairs)
  }

  /** When no key repeats, the reduction loses nothing and the policy is irrelevant. */
  lemma CollapseDistinctIsExact(pairs: Pairs, policy: Policy)
    requires DistinctKeys(pairs)
    ensures forall i :: 0 <= i < |pairs| ==> Collapse(pairs, policy)[pairs[i].0] == pairs[i].1
    ensures Collapse(pairs, FirstWins) == Collapse(pairs, LastWins)
  {
  }
}

=== FILE: properties.dfy ===
/** Properties of the gateway handler that relate several calls or several inputs. */
module GatewayProperties {
  import opened Wrappers
  import opened Text
  import opened Multidict
  import opened Registry
  import opened Forwarding

  /** The plan of `gw` for a request, abbreviated. */
  function PlanOf<J>(gw: Gateway<J>, service: string, path: string, req: Inbound): Outcome {
    PlanRequest(gw.registry, gw.headerPolicy, gw.queryPolicy, service, path, req)
  }

  // ---------------------------------------------------------------- resolution

  /**
   * An unknown service is a 404 naming it, whatever the method and body, and
   * the backend and decoder are never consulted: two gateways that share the
   * registry give the same reply.
   */
  lemma UnknownServiceIsNotFound<J>(gw: Gateway<J>, other: Gateway<J>, service: string, path: string, req: Inbound)
    requires service !in gw.registry
    requires other.registry == gw.registry
    ensures PlanOf(gw, service, path, req) == Error(ErrorEnvelope(404, "Service " + service + " not found"))
    ensures RouteRequest(gw, service, path, req) == Failed(ErrorEnvelope(404, "Service " + service + " not found"))
    ensures RouteRequest(other, service, path, req) == RouteRequest(gw, service, path, req)
  {
  }

  /** A 404 detail names the missing service. */
  lemma NotFoundNamesService(service: string)
    ensures IsSubstring(service, NotFound(service).detail)
  {
    assert OccursAt(NotFound(service).detail, service, |"Service "|);
  }

  /** The outbound URL of a known service starts with its configured base URL, unchanged. */
  lemma KnownServiceUrl<J>(gw: Gateway<J>, service: string, path: string, req: Inbound)
    requires PlanOf(gw, service, path, req).Forward?
    ensures Resolve(gw.registry, service) == Some(gw.registry[service])
    ensures SubPath(gw.registry[service], PlanOf(gw, service, path, req).plan.url) == Some(path)
  {
  }

  /** `SubPath` undoes the literal join, and the join is injective in the sub-path. */
  lemma SubPathInvertsTargetUrl(base: string, path: string, path': string)
    ensures SubPath(base, TargetUrl(base, path)) == Some(path)
    ensures TargetUrl(base, path) == TargetUrl(base, path') ==> path == path'
  {
  }

  /** The join normalises nothing: slashes already present are kept, and an empty sub-path leaves a trailing slash. */
  lemma UrlJoinIsLiteral()
    ensures TargetUrl("http://localhost:8000", "") == "http://localhost:8000/"
    ensures TargetUrl("http://localhost:8000", "/orders") == "http://localhost:8000//orders"
    ensures TargetUrl("http://localhost:8000/", "orders") == "http://localhost:8000//orders"
    ensures TargetUrl("http://blogs-service:8004", "posts/a b") == "http://blogs-service:8004/posts/a b"
  {
  }

  // ------------------------------------------------------------------- methods

  /** Each method's own lower-case name selects it. */
  lemma MethodNamesSelectMethods(m: Method)
    ensures ParseMethod(MethodName(m)) == Some(m)
  {
  }

  /** The handler recognises each method in any letter case. */
  lemma MethodsInAnyCase()
    ensures ParseMethod("GET") == Some(Get) && ParseMethod("Post") == Some(Post)
    ensures ParseMethod("PUT") == Some(Put) && ParseMethod("DeLeTe") == Some(Delete)
  {
  }

  /** Methods outside the four are not dispatched. */
  lemma OtherMethodsAreRejected()
    ensures ParseMethod("PATCH") == None && ParseMethod("HEAD") == None && ParseMethod("") == None
  {
    assert !CaseVariantOf("HEAD", "post") by { assert "HEAD"[0] != "post"[0]; }
  }

  /** Whatever method a plan issues, it is the inbound method, and a plan exists only for the four known ones. */
  lemma MethodIsPreserved<J>(gw: Gateway<J>, service: string, path: string, req: Inbound)
    requires PlanOf(gw, service, path, req).Forward?
    ensures ParseMethod(req.verb) == Some(PlanOf(gw, service, path, req).plan.verb)
  {
  }

  // --------------------------------------------------------------------- bodies

  /** GET and DELETE never send a body, whatever the inbound request carried. */
  lemma BodilessMethodsIgnoreBody<J>(gw: Gateway<J>, service: string, path: string, req: Inbound, body: Bytes)
    requires PlanOf(gw, service, path, req).Forward?
    requires !CarriesBody(PlanOf(gw, service, path, req).plan.verb)
    ensures PlanOf(gw, service, path, req).plan.body == NoBody
    ensures PlanOf(gw, service, path, req.(body := Success(body))) == PlanOf(gw, service, path, req)
  {
  }

  /**
   * POST and PUT lose nothing: the plan's body gives back the inbound body,
   * a non-empty inbound body goes out byte for byte, and an empty one goes
   * out as the `{}` placeholder.
   */
  lemma BodyIsForwarded<J>(gw: Gateway<J>, service: string, path: string, req: Inbound)
    requires PlanOf(gw, service, path, req).Forward?
    requires CarriesBody(PlanOf(gw, service, path, req).plan.verb)
    ensures InboundBodyOf(PlanOf(gw, service, path, req).plan.body) == Some(req.body.value)
    ensures |req.body.value| > 0 ==> PlanOf(gw, service, path, req).plan.body == Content(req.body.value)
    ensures |req.body.value| == 0 ==> PlanOf(gw, service, path, req).plan.body == EmptyPlaceholder
  {
  }

  // ------------------------------------------------------ headers and query

  /**
   * A plan carries the inbound headers and query parameters reduced to one
   * value per name and otherwise unaltered: the same names, every value one
   * the caller sent for that name, and exactly the caller's values when no
   * name repeats.
   */
  lemma HeadersAndQueryArePropagated<J>(gw: Gateway<J>, service: string, path: string, req: Inbound)
    requires PlanOf(gw, service, path, req).Forward?
    ensures var plan := PlanOf(gw, service, path, req).plan;
            && plan.headers.Keys == KeysOf(req.headers)
            && (forall k :: k in plan.headers ==> (k, plan.headers[k]) in req.headers)
            && plan.params.Keys == KeysOf(req.query)
            && (forall k :: k in plan.params ==> (k, plan.params[k]) in req.query)
    ensures var plan := PlanOf(gw, service, path, req).plan;
            DistinctKeys(req.headers) ==> forall i :: 0 <= i < |req.headers| ==> plan.headers[req.headers[i].0] == req.headers[i].1
    ensures var plan := PlanOf(gw, service, path, req).plan;
            DistinctKeys(req.query) ==> forall i :: 0 <= i < |req.query| ==> plan.params[req.query[i].0] == req.query[i].1
  {
  }

  // ----------------------------------------------------- response relay

  /** A reply is decoded exactly when its content type contains `application/json`; otherwise it is relayed untouched. */
  lemma ClassificationIsBySubstring<J>(resp: BackendResponse, decode: Bytes -> Result<J, string>)
    ensures var r := ClassifyResponse(resp, decode);
            (r.Success? && r.value.Raw?) <==> !IsSubstring(JsonMediaType, resp.contentType.GetOr(""))
    ensures var r := ClassifyResponse(resp, decode);
            r.Success? && r.value.Raw? ==>
              r.value.content == resp.content && r.value.status == resp.status && r.value.mediaType == resp.contentType.GetOr("")
  {
  }

  /** The test is a case-sensitive substring match on the raw header value; an absent header counts as empty. */
  lemma ClassificationExamples<J>(content: Bytes, status: int, decode: Bytes -> Result<J, string>)
    ensures ClassifyResponse(BackendResponse(status, None, content), decode) == Success(Raw(content, "", status))
    ensures ClassifyResponse(BackendResponse(status, Some("application/octet-stream"), content), decode)
              == Success(Raw(content, "application/octet-stream", status))
    ensures ClassifyResponse(BackendResponse(status, Some("Application/JSON"), content), decode)
              == Success(Raw(content, "Application/JSON", status))
    ensures decode(content).Success? ==>
              ClassifyResponse(BackendResponse(status, Some("application/json; charset=utf-8"), content), decode)
                == Success(Json(decode(content).value))
  {
    assert OccursAt("application/json; charset=utf-8", JsonMediaType, 0);
    MissingCharacterRulesOut("", JsonMediaType, 'a');
    MissingCharacterRulesOut("application/octet-stream", JsonMediaType, 'j');
    MissingCharacterRulesOut("Application/JSON", JsonMediaType, 'j');
  }

  // ------------------------------------------------------------ error taxonomy

  /** A body that cannot be read is a 500 naming the service; it is detected before the method is looked at. */
  lemma BodyReadFailureIs500<J>(gw: Gateway<J>, service: string, path: string, req: Inbound)
    requires service in gw.registry
    requires req.body.Failure?
    ensures RouteRequest(gw, service, path, req) == Failed(ErrorEnvelope(500, "Error forwarding request to " + service + ": " + req.body.error))
  {
  }

  /** The method-not-allowed exception is raised inside the forwarding block, so it leaves the handler as a 500, never a 405. */
  lemma UnsupportedMethodIs500<J>(gw: Gateway<J>, service: string, path: string, req: Inbound)
    requires service in gw.registry
    requires req.body.Success?
    requires ParseMethod(req.verb) == None
    ensures RouteRequest(gw, service, path, req)
              == Failed(ErrorEnvelope(500, "Error forwarding request to " + service + ": 405: Method not allowed"))
  {
  }

  /** A transport failure is a 500 carrying the client's exception text. */
  lemma TransportFailureIs500<J>(gw: Gateway<J>, service: string, path: string, req: Inbound)
    requires PlanOf(gw, service, path, req).Forward?
    requires gw.send(PlanOf(gw, service, path, req).plan).Failure?
    ensures RouteRequest(gw, service, path, req)
              == Failed(ForwardingError(service, gw.send(PlanOf(gw, service, path, req).plan).error))
  {
  }

  /** A JSON reply that does not decode is a 500 carrying the decoder's exception text. */
  lemma DecodeFailureIs500<J>(gw: Gateway<J>, service: string, path: string, req: Inbound)
    requires PlanOf(gw, service, path, req).Forward?
    requires gw.send(PlanOf(gw, service, path, req).plan).Success?
    requires IsSubstring(JsonMediaType, gw.send(PlanOf(gw, service, path, req).plan).value.contentType.GetOr(""))
    requires gw.decode(gw.send(PlanOf(gw, service, path, req).plan).value.content).Failure?
    ensures RouteRequest(gw, service, path, req)
              == Failed(ForwardingError(service, gw.decode(gw.send(PlanOf(gw, service, path, req).plan).value.content).error))
  {
  }

  /** Every forwarding-failure detail names the service it concerns. */
  lemma ForwardingDetailNamesService(detail: string, service: string)
    requires IsForwardingDetail(detail, service)
    ensures IsSubstring(service, detail)
  {
    var message :| detail == ForwardingPrefix(service) + message;
    var at := |"Error forwarding request to "|;
    assert detail[at..at + |service|] == service;
    assert OccursAt(detail, service, at);
  }

  /**
   * The handler's error envelopes: 404 exactly for an unknown service, 500
   * otherwise, never 405, and every detail names the service.
   */
  lemma ErrorsNameTheService<J>(gw: Gateway<J>, service: string, path: string, req: Inbound)
    ensures var r := RouteRequest(gw, service, path, req);
            r.Failed? ==> r.error.status != 405 && IsSubstring(service, r.error.detail)
  {
    var r := RouteRequest(gw, service, path, req);
    if r.Failed? {
      if r.error.status == 404 {
        NotFoundNamesService(service);
      } else {
        ForwardingDetailNamesService(r.error.detail, service);
      }
    }
  }

  /** A reply is relayed exactly when a plan was made, the backend answered, and its reply classified cleanly. */
  lemma RelayedExactlyOnSuccess<J>(gw: Gateway<J>, service: string, path: string, req: Inbound, relay: Relay<J>)
    ensures RouteRequest(gw, service, path, req) == Relayed(relay)
            <==> && PlanOf(gw, service, path, req).Forward?
                 && gw.send(PlanOf(gw, service, path, req).plan).Success?
                 && ClassifyResponse(gw.send(PlanOf(gw, service, path, req).plan).value, gw.decode) == Success(relay)
  {
  }
}

=== FILE: registry.dfy ===
/** The service registry: a fixed map from a logical service name to its backend base URL. */
module Registry {
  import opened Wrappers

  /** The backends the gateway knows, keyed by the first path segment of a request. */
  const ServiceRegistry: map<string, string> := map[
    "payment" := "http://localhost:8000",
    "account" := "http://account-service:8002",
    "product" := "http://product-service:8003",
    "blogs" := "http://blogs-service:8004"
  ]

  /** Exact-match lookup of `service`; a miss is `None`. */
  function Resolve(registry: map<string, string>, service: string): (r: Option<string>)
    ensures forall url :: r == Some(url) <==> (service, url) in registry.Items
    ensures r == None <==> service !in registry
  {
    if service in registry then Some(registry[service]) else None
  }

  /** Each configured service resolves to its configured URL, character for character. */
  lemma ConfiguredServicesResolve()
    ensures Resolve(ServiceRegistry, "payment") == Some("http://localhost:8000")
    ensures Resolve(ServiceRegistry, "account") == Some("http://account-service:8002")
    ensures Resolve(ServiceRegistry, "product") == Some("http://product-service:8003")
    ensures Resolve(ServiceRegistry, "blogs") == Some("http://blogs-service:8004")
    ensures forall s :: Resolve(ServiceRegistry, s).Some? ==> s in {"payment", "account", "product", "blogs"}
  {
  }

  /** The lookup neither folds case nor trims: near misses of a configured name are unknown. */
  lemma LookupIsExact()
    ensures Resolve(ServiceRegistry, "Payment") == None
    ensures Resolve(ServiceRegistry, "PAYMENT") == None
    ensures Resolve(ServiceRegistry, "payment ") == None
    ensures Resolve(ServiceRegistry, "blog") == None
    ensures Resolve(ServiceRegistry, "") == None
  {
  }
}

=== FILE: text.dfy ===
/** String operations the handler relies on: Python's `in` on `str` and ASCII lower-casing. */
module Text {

  /** `needle` occurs in `hay` at index `i`. */
  ghost predicate OccursAt(hay: string, needle: string, i: int) {
    0 <= i && i + |needle| <= |hay| && hay[i..i + |needle|] == needle
  }

  /** `needle` occurs somewhere in `hay`. */
  ghost predicate IsSubstring(needle: string, hay: string) {
    exists i :: OccursAt(hay, needle, i)
  }

  /** An occurrence in `hay[1..]` is an occurrence in `hay`, one position later. */
  lemma OccursAtShift(hay: string, needle: string, i: int)
    requires |hay| > 0 && i >= 0
    ensures OccursAt(hay[1..], needle, i) <==> OccursAt(hay, needle, i + 1)
  {
  }

  /** Python's `needle in hay`: a case-sensitive substring test. */
  function Contains(hay: string, needle: string): (r: bool)
    ensures r <==> IsSubstring(needle, hay)
    decreases |hay|
  {
    if |hay| < |needle| then
      false
    else if hay[..|needle|] == needle then
      assert OccursAt(hay, needle, 0);
      true
    else
      var rest := Contains(hay[1..], needle);
      assert rest ==> IsSubstring(needle, hay) by {
        if rest {
          var i :| OccursAt(hay[1..], needle, i);
          assert i >= 0;
          OccursAtShift(hay, needle, i);
        }
      }
      assert IsSubstring(needle, hay) ==> rest by {
        if IsSubstring(needle, hay) {
          var i :| OccursAt(hay, needle, i);
          assert i != 0;
          OccursAtShift(hay, needle, i - 1);
        }
      }
      rest
  }

  /** A text lacking one of the needle's characters cannot contain the needle. */
  lemma MissingCharacterRulesOut(hay: string, needle: string, c: char)
    requires c in needle && c !in hay
    ensures !IsSubstring(needle, hay)
  {
  }

  /** Maps the upper-case ASCII letters `A`..`Z` to `a`..`z` and leaves every other character alone. */
  function LowerChar(c: char): char {
    if 'A' <= c <= 'Z' then (c as int + 32) as char else c
  }

  /** Python's `str.lower()` restricted to ASCII letters. */
  function Lower(s: string): (r: string)
    ensures |r| == |s|
    ensures forall i :: 0 <= i < |r| ==> !('A' <= r[i] <= 'Z')
    ensures forall i :: 0 <= i < |s| ==> r[i] == s[i] || ('A' <= s[i] <= 'Z' && r[i] as int == s[i] as int + 32)
  {
    seq(|s|, i requires 0 <= i < |s| => LowerChar(s[i]))
  }

  /** Every letter of `w` is a lower-case ASCII letter. */
  predicate IsLowerWord(w: string) {
    forall i :: 0 <= i < |w| ==> 'a' <= w[i] <= 'z'
  }

  /** `s` spells the lower-case word `w` with any mix of upper and lower case. */
  ghost predicate CaseVariantOf(s: string, w: string) {
    && |s| == |w|
    && forall i :: 0 <= i < |s| ==> s[i] == w[i] || s[i] as int == w[i] as int - 32
  }

  /** Lower-casing yields a lower-case word exactly for the case variants of that word. */
  lemma LowerMatchesCaseVariants(s: string, w: string)
    requires IsLowerWord(w)
    ensures Lower(s) == w <==> CaseVariantOf(s, w)
  {
  }
}

=== FILE: wrappers.dfy ===
/** Option and Result types used throughout the gateway model. */
module Wrappers {

  /** An optional value: a header that may be absent, a lookup that may miss. */
  datatype Option<+T> = None | Some(value: T) {

    /** The wrapped value, or `default` when there is none. */
    function GetOr(default: T): T {
      match this
      case Some(v) => v
      case None => default
    }
  }

  /** The outcome of an operation that can raise: a value, or the text of the exception. */
  datatype Result<+R, +E> = Success(value: R) | Failure(error: E)
}
